=== FILE: README.md ===
# AutoFuelConcurrentQueue, modelled in Dafny

`AutoFuelConcurrentQueue<T>` is a `ConcurrentQueue<T>` that refills itself: when a
consumer's `DequeueAsync` finds the queue empty, the queue asks its data provider
for `poolSize - Count` more items (`Fuel`), queues them, and hands out the first.
A `SemaphoreSlim` that starts at 0 guards the "check empty / fuel / pop"
decision: every dequeuer that gets past the wait releases it once, either right
after popping or at the end of `Fuel`, which is before the refilling caller
pops, unless a null in the refill batch makes `Fuel` throw first. When the provider has nothing left, `DequeueAsync`
throws `EndOfQueueException`.

The model is a functional state machine. The state (`AutoFuelQueue.Queue`) is
the queue's contents as a `seq<T>`, the semaphore's count as a `nat`, the pool
size as a C# `int`, and the provider. Each public call is a pure function from a
state to a `Step`: the next state plus an `Outcome`. The outcomes are an item,
`EndOfQueue`, `ArgumentNull`, `Canceled`, or `Blocked`. `Blocked` means an
untimed wait with no permit, which never ends unless a later call releases.
Treating a whole call as one atomic step is exact for a single consumer, whose
calls follow one another. With several consumers it is not: C# dequeue bodies can
overlap even while the count stays at 1, because `Fuel` releases before its
caller checks `Count` and pops, and a manual `Enqueue` releases while a body
holds the permit. The model runs every call to completion before the next one.

The provider is the test suite's `MyDataProvider`: a cursor over a fixed list
(`DataProvider.Provider`), with `Skip`/`Take` semantics and a 32-bit cursor that
wraps on overflow. Items are `Nullable<T>` wherever C# could pass a null: in
`Enqueue`'s argument and in the provider's list.

Files, one module each:
- `int32.dfy` (`Int32`): C# `int` and unchecked wrap-around.
- `items.dfy` (`Items`): nullable items, and what `_Enqueue` accepts from a batch.
- `data_provider.dfy` (`DataProvider`): the cursor provider and its constructor.
- `auto_fuel_queue.dfy` (`AutoFuelQueue`): the queue's state and its operations.
- `queue_runs.dfy` (`QueueRuns`): properties of single calls and runs of calls.

Four behaviours of the code as written are kept, although a reader might expect otherwise:
- The semaphore is a counting semaphore, not a gate confined to {0,1}. It starts at 0, and each manual `Enqueue` adds a permit.
- The timed overloads ignore `WaitAsync`'s result. A timed-out call still runs the body and releases.
- The refill deficit is not clamped. A non-positive request yields an empty batch, and the provider's cursor moves back by that amount.
- A null in a fuel batch throws with the permit still held.

## Model

| member | source | states |
|---|---|---|
| Int32.Wrap | test/test.AutoFuelConcurrentQueue/MyDataProvider.cs:31 | C# unchecked `int` addition: an in-range sum is unchanged, and `int.MaxValue + 1` becomes `int.MinValue` |
| Int32.WrapCongruent | test/test.AutoFuelConcurrentQueue/MyDataProvider.cs:31 | the wrapped result differs from the exact sum by a multiple of 2^32 |
| Items.Accepted | src/AutoFuelConcurrentQueue/AutoFuelConcurrentQueue.cs:242-245 | `_Enqueue` over a batch stores, in order, exactly the items before the first null; the whole batch is stored iff it has no null |
| Items.AcceptedAppend | src/AutoFuelConcurrentQueue/AutoFuelConcurrentQueue.cs:242-245 | storing a null-free batch and then another batch is the same as storing their concatenation |
| DataProvider.Rest | test/test.AutoFuelConcurrentQueue/MyDataProvider.cs:30 | `Skip(consumed)`: the list from the cursor on, where a cursor of zero or less skips nothing and a cursor past the end leaves nothing |
| DataProvider.Batch | test/test.AutoFuelConcurrentQueue/MyDataProvider.cs:30 | `Skip(consumed).Take(count)` is a prefix of what remains after the cursor; its length is `min(count, remaining)`, or 0 when `count <= 0`, so it never exceeds `count` |
| DataProvider.GetNewData | test/test.AutoFuelConcurrentQueue/MyDataProvider.cs:25-33 | returns the batch at the cursor, keeps the list, and advances the cursor by the requested count: exactly when the sum fits in an `int`, and otherwise to the one 32-bit value congruent to the sum modulo 2^32, as C# `int` wraps |
| DataProvider.CursorAdvancesByRequest | test/test.AutoFuelConcurrentQueue/MyDataProvider.cs:31 | the cursor grows by the requested count, not by the batch length; a short batch leaves the cursor past the end of the list |
| DataProvider.ExhaustedStaysEmpty | test/test.AutoFuelConcurrentQueue/MyDataProvider.cs:30-31 | once the cursor is at or past the end, every call returns an empty batch, and the cursor stays past the end while it does not wrap |
| DataProvider.CursorWrapRedelivers | test/test.AutoFuelConcurrentQueue/MyDataProvider.cs:30-31 | a request past `int.MaxValue` wraps the cursor to `int.MinValue`, after which `Skip` starts over and hands out the first item again |
| DataProvider.SuccessiveCallsConcatenate | test/test.AutoFuelConcurrentQueue/MyDataProvider.cs:30-31 | successive non-negative requests without wrap-around return consecutive runs of the list: together, the list from the cursor on, up to the total requested, with nothing repeated or skipped |
| DataProvider.RestAfterFetch | test/test.AutoFuelConcurrentQueue/MyDataProvider.cs:30-31 | after a request without wrap-around, what remains is what remained before minus exactly the batch |
| DataProvider.NewTestProvider | test/test.AutoFuelConcurrentQueue/MyDataProvider.cs:13-23 | the fill loop for i = 0..DataCount builds a list of DataCount + 1 = 101 non-null names in generation order, with the cursor at 0 |
| AutoFuelQueue.Wait | src/AutoFuelConcurrentQueue/AutoFuelConcurrentQueue.cs:103-105 | the wait acquires iff there is a permit and the token has not fired; with no permit, the untimed form blocks and the timed forms time out |
| AutoFuelQueue.Request | src/AutoFuelConcurrentQueue/AutoFuelConcurrentQueue.cs:240 | the refill asks for `_poolSize - Count`, which is exactly `_poolSize` when the queue is empty |
| AutoFuelQueue.Fuel | src/AutoFuelConcurrentQueue/AutoFuelConcurrentQueue.cs:238-248 | appends the provider's batch in order and releases exactly once; if the batch has a null, it keeps the items before it, throws `ArgumentNullException` and does not release |
| AutoFuelQueue.New | src/AutoFuelConcurrentQueue/AutoFuelConcurrentQueue.cs:37-44 | without initial fueling: an empty queue with 0 permits. With it: the provider's first `poolSize` items and 1 permit, or no queue when the batch holds a null |
| AutoFuelQueue.Enqueue | src/AutoFuelConcurrentQueue/AutoFuelConcurrentQueue.cs:51-56 | a null item throws and changes nothing; otherwise the item goes to the tail and the permit count rises by exactly 1 |
| AutoFuelQueue.Critical | src/AutoFuelConcurrentQueue/AutoFuelConcurrentQueue.cs:80-93 | past the wait, the body hands out the head of what is available, or throws end-of-queue when a refill of an empty queue adds nothing; both paths release exactly once, and the null-in-batch path does not release |
| AutoFuelQueue.DequeueAsync | src/AutoFuelConcurrentQueue/AutoFuelConcurrentQueue.cs:76-94 | blocks iff untimed with no permit, and changes nothing when blocked or cancelled. Items leave in FIFO order. End of queue happens iff the call was not blocked or cancelled and the queue and its refill were both empty, and leaves a permit. A refill of an empty queue moves the cursor by exactly the request for `_poolSize` items. The net permit change is 0 when the wait acquired and +1 when it timed out; a null in the refill loses the permit taken |
| QueueRuns.DequeueFromNonEmpty | src/AutoFuelConcurrentQueue/AutoFuelConcurrentQueue.cs:81-85 | a dequeue that is not cancelled, on a non-empty queue with a permit, hands out its head, keeps its tail, and leaves the permit count unchanged |
| QueueRuns.DequeueFromEmpty | src/AutoFuelConcurrentQueue/AutoFuelConcurrentQueue.cs:86-91 | over a provider list without nulls, a dequeue that is not cancelled on an empty queue holding a permit requests exactly `_poolSize` items. It either throws end-of-queue with only the cursor moved, or hands out the batch's first item and keeps the rest in order; the permit count is unchanged either way |
| QueueRuns.UnfueledQueueBlocks | src/AutoFuelConcurrentQueue/AutoFuelConcurrentQueue.cs:13 | the semaphore starts at 0, so without initial fueling the untimed dequeue on a fresh queue blocks |
| QueueRuns.EnqueueThenDequeue | src/AutoFuelConcurrentQueue/AutoFuelConcurrentQueue.cs:51-56 | an item enqueued on an empty queue is the next item dequeued by a call that is not cancelled, and the contents return to empty; the added permit remains |
| QueueRuns.EnqueueExceedsBinaryGate | src/AutoFuelConcurrentQueue/AutoFuelConcurrentQueue.cs:55 | one manual `Enqueue` on a fueled queue raises the permit count to 2 |
| QueueRuns.TimedOutCallAddsPermit | src/AutoFuelConcurrentQueue/AutoFuelConcurrentQueue.cs:105-111 | a timed dequeue that times out with no permit still releases, leaving the count at 1 |
| QueueRuns.NullInBatchLeaksPermit | src/AutoFuelConcurrentQueue/AutoFuelConcurrentQueue.cs:242-247 | a null in the refill batch throws with the permit held: the count falls from 1 to 0, and the next untimed dequeue blocks |
| QueueRuns.ExhaustionNotLatched | src/AutoFuelConcurrentQueue/AutoFuelConcurrentQueue.cs:88-89 | after end of queue, the next dequeue does not block, and an item enqueued afterwards is handed out |
| QueueRuns.OnePermitStep | src/AutoFuelConcurrentQueue/AutoFuelConcurrentQueue.cs:78-91 | with one permit and a null-free provider, any dequeue overload leaves exactly one permit and neither blocks nor throws `ArgumentNullException` |
| QueueRuns.PermitInvariant | src/AutoFuelConcurrentQueue/AutoFuelConcurrentQueue.cs:78-91 | from one permit, over a provider list without nulls, every run of dequeues keeps the count at exactly 1 after each call, and no call blocks or throws `ArgumentNullException` |
| QueueRuns.FueledQueueKeepsOnePermit | src/AutoFuelConcurrentQueue/AutoFuelConcurrentQueue.cs:43 | a queue built with initial fueling over a provider list without nulls starts with 1 permit and keeps it through any run of dequeues without manual `Enqueue` |
| QueueRuns.EmptyProviderAlwaysExhausted | src/AutoFuelConcurrentQueue/AutoFuelConcurrentQueue.cs:86-89 | from an empty queue holding a permit, against a provider whose list is empty, every dequeue in a run of calls that are not cancelled throws end-of-queue; none hangs |
| QueueRuns.ExhaustedStaysExhausted | src/AutoFuelConcurrentQueue/AutoFuelConcurrentQueue.cs:86-89 | with the queue empty, a permit held, a non-negative pool size, and the cursor past the end of the list and short of wrap-around, an untimed dequeue throws end-of-queue with the permit count unchanged and leaves the cursor past the end |
| QueueRuns.DrainStep | src/AutoFuelConcurrentQueue/AutoFuelConcurrentQueue.cs:78-91 | with a positive pool size, a permit held, a provider list without nulls and a cursor that cannot wrap, one untimed dequeue hands out exactly the first item still owed, or throws end-of-queue iff nothing is owed; the permit count is unchanged |
| QueueRuns.Drain | test/test.AutoFuelConcurrentQueue/AutoFuelTest.cs:34-47 | dequeuing until end of queue delivers every owed item once, queue first and then the list's remainder in order, and ends empty with the permit count unchanged |
| QueueRuns.FreshQueueOwesWholeList | src/AutoFuelConcurrentQueue/AutoFuelConcurrentQueue.cs:43 | a queue freshly built with initial fueling owes exactly the provider's whole list: the first batch is queued and the cursor sits just past it |
| QueueRuns.ConservationFromConstruction | src/AutoFuelConcurrentQueue/AutoFuelConcurrentQueue.cs:238-248 | after construction with initial fueling, draining delivers the provider's whole list exactly once, in list order |
| QueueRuns.TestScenarioDeliversEverything | test/test.AutoFuelConcurrentQueue/AutoFuelTest.cs:34-47 | with pool size 10 over the 101-name list, one consumer draining the queue gets DataCount + 1 = 101 successful dequeues, name i being the list's i-th |
| QueueRuns.TestQueue | test/test.AutoFuelConcurrentQueue/AutoFuelTest.cs:19-20 | the setup's queue is the one the constructor builds with pool size 10 and initial fueling over the list of generated names; it can be drained, and one consumer draining it receives the i-th generated name as its i-th item, 101 in all |
| QueueRuns.TestScenario | test/test.AutoFuelConcurrentQueue/AutoFuelTest.cs:34-47 | building the test provider and then the queue with pool size 10, with one consumer draining it, delivers the i-th generated name as the i-th item, 101 names in all |

## Left out

- `async`/`Task` machinery and real concurrency (`Task.Run`, `Task.WhenAll`, interleavings). Each public call is one atomic step, which is exact only for a single consumer.
- The window between `Fuel`'s release and its caller's pop is not modelled. `Fuel` releases at src/AutoFuelConcurrentQueue/AutoFuelConcurrentQueue.cs:247, before the caller checks `Count == 0` and calls `TryDequeue` at lines 89-90 (and the same in the other overloads). A waiter woken by that release can run lines 81-84 in between, even while the count never exceeds 1. Suppose the refill brought one item, as the test's last refill does (101 names, pool size 10). Then the waiter can pop that item, and the refilling caller's `TryDequeue` fails and it returns `default(T)`.
- Other overlapping dequeue bodies are not modelled either. With two or more permits, after a timed wait ran out, or when a manual `Enqueue` releases while a body holds the permit, two bodies can run at once. Both can see `Count > 0` on a one-item queue (line 81). One `TryDequeue` then fails and that call returns `default(T)` (lines 83 and 93); two `Fuel` calls can also overlap. The model runs all calls one after the other, so it has no failed-`TryDequeue` path and never returns a null or default item.
- Waking a parked waiter is not modelled. An untimed dequeue with no permit returns `Blocked` and leaves the state unchanged. In C#, a later `Release`, for example from `Enqueue`, wakes the parked waiter and hands it the permit. In the model the blocked call is dropped, and the permit goes to whichever call comes next.
- Cancellation tokens and timeouts are reduced to three wait modes: untimed, timed, and a token that has fired. The `TimeSpan`/millisecond values are not modelled. So neither is `ArgumentOutOfRangeException` for a timeout below -1, nor the infinite timeout, which behaves as the untimed form.
- Provider exceptions: the modelled provider is the cursor over a list, and it never throws.
- `SemaphoreSlim`'s maximum count (`int.MaxValue`, past which `Release` throws) is not modelled; the count is an unbounded `nat`.
- The private constructors (src/AutoFuelConcurrentQueue/AutoFuelConcurrentQueue.cs:19-28), and the inherited `ConcurrentQueue` members reachable past the shadowing `Enqueue`.
- `EndOfQueueException.cs` and `IDataProvider.cs`: they become the `EndOfQueue` outcome and the cursor provider. In the constructor, an exception from `Fuel().Wait()` arrives wrapped in `AggregateException`; the model only says no queue is produced (`None`).
- Faker name generation: the i-th generated name is the parameter `fakeName(i)`.
- `Task.Delay(0)`, the stopwatch and console output, the `AutoFuel/` test folder (a second provider over data that is not part of this model, and a timing test) and the `Typical/` benchmark.
- QueueRuns.Drain: proved only while the provider's cursor cannot wrap (`|data| + 2 * poolSize <= int.MaxValue`), with a positive pool size and a null-free list. Past that bound the as-written cursor redelivers items (see DataProvider.CursorWrapRedelivers).
- QueueRuns.DrainStep: same bound as QueueRuns.Drain. Outside it, a pool size of 0 asks for no items and throws end-of-queue while the list still owes items, and a null in the list throws `ArgumentNullException`.
- QueueRuns.ConservationFromConstruction: same bound as QueueRuns.Drain.
- QueueRuns.FreshQueueOwesWholeList: same bound as QueueRuns.Drain.
- QueueRuns.TestScenario: covers one consumer only. The test's five concurrent tasks (test/test.AutoFuelConcurrentQueue/AutoFuelTest.cs:28-54) can, through the refill window above, receive a 102nd, default item, which the count check at line 56 would reject; the model does not cover that run.
- QueueRuns.TestScenarioDeliversEverything: covers one consumer only, for the same reason as QueueRuns.TestScenario.
- QueueRuns.TestQueue: its drain is one consumer's, for the same reason as QueueRuns.TestScenario.
- DataProvider.SuccessiveCallsConcatenate: stated for non-negative request sizes without wrap-around. Negative requests move the cursor back, and items are then handed out again.

=== FILE: auto_fuel_queue.dfy ===
/** `AutoFuelConcurrentQueue<T>` as a state machine. The state is the queue's
    contents, the `SemaphoreSlim` permit count and the data provider; each public
    call is one atomic step. That is exact for a single consumer. With several,
    C# bodies can overlap (`Fuel` releases before its caller pops, and a manual
    `Enqueue` releases while a body holds the permit); the model runs every
    call to completion before the next one. */
module AutoFuelQueue {
  import opened Int32
  import opened Items
  import opened DataProvider

  /** `_poolSize`, the `ConcurrentQueue` contents (head first), the semaphore's
      count and the provider. */
  datatype Queue<T> = Queue(poolSize: int32, items: seq<T>, permits: nat, provider: Provider<T>)

  /** How a call ends. */
  datatype Outcome<T> =
    | Done                  // a void call returned normally
    | Item(value: T)        // `DequeueAsync` returned an item
    | EndOfQueue            // `EndOfQueueException`
    | ArgumentNull          // `ArgumentNullException`
    | Canceled              // `OperationCanceledException` from the wait
    | Blocked               // the wait never ends: no permit, no timeout, nobody left to release

  datatype Step<T> = Step(state: Queue<T>, outcome: Outcome<T>)

  datatype Option<T> = None | Some(value: T)

  /** How a `DequeueAsync` overload waits on the semaphore. */
  datatype WaitMode =
    | Untimed               // `DequeueAsync()`, or a cancellation token that does not fire
    | Timed                 // the overloads with a finite `TimeSpan` or millisecond timeout
    | CanceledToken         // a cancellation token that fires before a permit is granted

  /** What `WaitAsync` does, seen from a single caller. */
  datatype WaitResult = Acquired | TimedOut | WaitCanceled | WaitBlocked

  function Wait(mode: WaitMode, permits: nat): (w: WaitResult)
    ensures w == Acquired <==> mode != CanceledToken && permits > 0
    ensures w == TimedOut <==> mode == Timed && permits == 0
    ensures w == WaitBlocked <==> mode == Untimed && permits == 0
    ensures w == WaitCanceled <==> mode == CanceledToken
  {
    match mode
    case CanceledToken => WaitCanceled
    case Untimed => if permits > 0 then Acquired else WaitBlocked
    case Timed => if permits > 0 then Acquired else TimedOut
  }

  /** The count `Fuel` asks the provider for: `_poolSize - Count`, in C# `int`. */
  function Request<T>(q: Queue<T>): (n: int32)
    ensures |q.items| == 0 ==> n == q.poolSize
    ensures Min <= q.poolSize as int - |q.items| ==> n as int == q.poolSize as int - |q.items|
  {
    Wrap(q.poolSize as int - |q.items|)
  }

  /** The batch `Fuel` receives when run on `q`. */
  function FuelBatch<T>(q: Queue<T>): seq<Nullable<T>>
  {
    GetNewData(q.provider, Request(q)).batch
  }

  /** `Fuel`: fetch `_poolSize - Count` items, `_Enqueue` them in the provider's
      order, then release the semaphore once. A null in the batch makes
      `_Enqueue` throw part-way: the items before it stay queued and the
      release is never reached. */
  function Fuel<T>(q: Queue<T>): (r: Step<T>)
    ensures r.state.poolSize == q.poolSize
    ensures r.state.provider == GetNewData(q.provider, Request(q)).provider
    ensures r.outcome == Done || r.outcome == ArgumentNull
    ensures r.outcome == Done <==> AllNonNull(FuelBatch(q))
    ensures r.outcome == Done ==>
              && r.state.items == q.items + Accepted(FuelBatch(q))
              && |r.state.items| == |q.items| + |FuelBatch(q)|
              && r.state.permits == q.permits + 1
    ensures r.outcome == ArgumentNull ==>
              && r.state.permits == q.permits
              && r.state.items == q.items + Accepted(FuelBatch(q))
              && |r.state.items| < |q.items| + |FuelBatch(q)|
  {
    var fetched := GetNewData(q.provider, Request(q));
    var filled := q.(items := q.items + Accepted(fetched.batch), provider := fetched.provider);
    if AllNonNull(fetched.batch) then Step(filled.(permits := filled.permits + 1), Done)
    else Step(filled, ArgumentNull)
  }

  /** The public constructor. The semaphore starts at 0; with `initialFueling`
      the constructor runs `Fuel` to completion, and an exception from it
      escapes the constructor, so no queue is produced. */
  function New<T>(poolSize: int32, provider: Provider<T>, initialFueling: bool): (r: Option<Queue<T>>)
    ensures !initialFueling ==> r == Some(Queue(poolSize, [], 0, provider))
    ensures initialFueling ==>
              var b := GetNewData(provider, poolSize);
              && (r.Some? <==> AllNonNull(b.batch))
              && (r.Some? ==>
                    && r.value.poolSize == poolSize
                    && r.value.items == Accepted(b.batch)
                    && |r.value.items| == |b.batch|
                    && r.value.permits == 1
                    && r.value.provider == b.provider)
  {
    var empty := Queue(poolSize, [], 0, provider);
    if !initialFueling then Some(empty)
    else
      var f := Fuel(empty);
      if f.outcome == Done then Some(f.state) else None
  }


  /** The public `Enqueue`: a null item is refused with nothing changed;
      otherwise the item goes to the tail and the semaphore gains a permit. */
  function Enqueue<T>(q: Queue<T>, item: Nullable<T>): (r: Step<T>)
    ensures item.Null? ==> r == Step(q, ArgumentNull)
    ensures item.NonNull? ==>
              && r.outcome == Done
              && r.state.items == q.items + [item.value]
              && r.state.permits == q.permits + 1
              && r.state.poolSize == q.poolSize
              && r.state.provider == q.provider
  {
    match item
    case Null => Step(q, ArgumentNull)
    case NonNull(v) => Step(q.(items := q.items + [v], permits := q.permits + 1), Done)
  }

  /** The items a dequeue on `q` can hand out, head first: the queue's contents,
      or, when it is empty, the items `Fuel` adds. */
  function Available<T>(q: Queue<T>): seq<T>
  {
    if |q.items| > 0 then q.items else Accepted(FuelBatch(q))
  }

  /** `DequeueAsync`: wait on the semaphore; then either pop and release, or run
      `Fuel` (which releases) and pop, or throw `EndOfQueueException` if the
      queue is still empty. The timed overloads ignore whether the wait
      succeeded, so a timed-out call runs the same body without a permit. */
  function DequeueAsync<T>(q: Queue<T>, mode: WaitMode): (r: Step<T>)
    ensures r.outcome == Blocked <==> mode == Untimed && q.permits == 0
    ensures r.outcome == Canceled <==> mode == CanceledToken
    ensures r.outcome.Blocked? || r.outcome.Canceled? ==> r.state == q
    ensures !r.outcome.Done?
    ensures r.state.poolSize == q.poolSize && r.state.provider.data == q.provider.data
    // first in, first out: the item handed out and what stays queued are exactly what was available
    ensures r.outcome.Item? ==> [r.outcome.value] + r.state.items == Available(q)
    ensures r.outcome.Item? && |q.items| > 0 ==> r.state.provider == q.provider
    ensures r.outcome == EndOfQueue <==>
              && mode != CanceledToken && !(mode == Untimed && q.permits == 0)
              && |q.items| == 0 && FuelBatch(q) == []
    ensures r.outcome == EndOfQueue ==> r.state.items == [] && r.state.permits > 0
    // a refill moves the cursor by exactly `_poolSize`, the deficit of an empty queue
    ensures |q.items| == 0 && !r.outcome.Blocked? && !r.outcome.Canceled? ==>
              r.state.provider == GetNewData(q.provider, q.poolSize).provider
    // one release for every permit taken, on the item and end-of-queue paths alike
    ensures r.outcome.Item? || r.outcome == EndOfQueue ==>
              r.state.permits == if Wait(mode, q.permits) == Acquired then q.permits else q.permits + 1
    // a null in the fuel batch escapes before the release: the permit taken is never returned
    ensures r.outcome == ArgumentNull ==>
              && |q.items| == 0 && !AllNonNull(FuelBatch(q))
              && r.state.permits + 1 == if Wait(mode, q.permits) == Acquired then q.permits else q.permits + 1
  {
    match Wait(mode, q.permits)
    case WaitBlocked => Step(q, Blocked)
    case WaitCanceled => Step(q, Canceled)
    case Acquired => Critical(q.(permits := q.permits - 1))
    case TimedOut => Critical(q)
  }

  /** The body every overload runs once past the wait: every path through it
      releases the semaphore exactly once, except the one where `Fuel` throws. */
  function Critical<T>(q: Queue<T>): (r: Step<T>)
    ensures r.outcome.Item? || r.outcome == EndOfQueue || r.outcome == ArgumentNull
    ensures r.state.poolSize == q.poolSize && r.state.provider.data == q.provider.data
    ensures r.outcome.Item? ==> [r.outcome.value] + r.state.items == Available(q)
    ensures r.outcome.Item? && |q.items| > 0 ==> r.state.provider == q.provider
    ensures r.outcome == EndOfQueue <==> |q.items| == 0 && FuelBatch(q) == []
    ensures r.outcome == EndOfQueue ==> r.state.items == []
    ensures |q.items| == 0 ==> r.state.provider == GetNewData(q.provider, q.poolSize).provider
    ensures r.outcome.Item? || r.outcome == EndOfQueue ==> r.state.permits == q.permits + 1
    ensures r.outcome == ArgumentNull ==>
              |q.items| == 0 && !AllNonNull(FuelBatch(q)) && r.state.permits == q.permits
  {
    if |q.items| > 0 then
      Step(q.(items := q.items[1..], permits := q.permits + 1), Item(q.items[0]))
    else
      var f := Fuel(q);
      if f.outcome != Done then f
      else if |f.state.items| == 0 then Step(f.state, EndOfQueue)
      else Step(f.state.(items := f.state.items[1..]), Item(f.state.items[0]))
  }
}

=== FILE: data_provider.dfy ===
/** The data provider the queue is exercised with: a cursor over a fixed list.
    Each request skips the items already handed out and takes up to the
    requested number of the rest. */
module DataProvider {
  import opened Int32
  import opened Items

  /** The number the constructor's fill loop runs up to, inclusive. */
  const DataCount: nat := 100

  /** The backing list and `_consumedCount`, the number of items requested so far. */
  datatype Provider<T> = Provider(data: seq<Nullable<T>>, consumed: int32)

  /** What one `GetNewData` call hands back: the batch and the advanced provider. */
  datatype Fetched<T> = Fetched(batch: seq<Nullable<T>>, provider: Provider<T>)

  /** The smaller of two integers. */
  function Smaller(a: int, b: int): int { if a <= b then a else b }

  /** Where `Skip(consumed)` starts reading: a count of zero or less skips nothing. */
  function Start<T>(p: Provider<T>): (s: nat)
    ensures p.consumed >= 0 ==> s == p.consumed as int
    ensures p.consumed < 0 ==> s == 0
  {
    if p.consumed <= 0 then 0 else p.consumed as int
  }

  /** The list items not yet handed out. */
  function Rest<T>(p: Provider<T>): (r: seq<Nullable<T>>)
    ensures |r| == if Start(p) < |p.data| then |p.data| - Start(p) else 0
    ensures Start(p) < |p.data| ==> r == p.data[Start(p)..]
  {
    if Start(p) < |p.data| then p.data[Start(p)..] else []
  }

  /** `data.Skip(consumed).Take(count)`: a contiguous run of the list starting at
      the cursor, never longer than `count` and empty for a non-positive `count`. */
  function Batch<T>(p: Provider<T>, count: int32): (b: seq<Nullable<T>>)
    ensures |b| == if count <= 0 then 0 else Smaller(count as int, |Rest(p)|)
    ensures |b| <= if count <= 0 then 0 else count as int
    ensures b == Rest(p)[..|b|]
  {
    if count <= 0 || Start(p) >= |p.data| then []
    else p.data[Start(p)..Smaller(Start(p) + count as int, |p.data|)]
  }

  /** `GetNewData(count)`: the batch at the cursor, after which `_consumedCount`
      grows by the requested `count` (wrapping as C# `int` does), however many
      items the batch actually holds. */
  function GetNewData<T>(p: Provider<T>, count: int32): (r: Fetched<T>)
    ensures r.batch == Batch(p, count)
    ensures r.provider.data == p.data
    ensures Min <= p.consumed as int + count as int <= Max ==>
              r.provider.consumed as int == p.consumed as int + count as int
    // out of range, the cursor is the one 32-bit value congruent to the exact sum
    ensures (r.provider.consumed as int - (p.consumed as int + count as int)) % Modulus == 0
  {
    WrapCongruent(p.consumed as int + count as int);
    Fetched(Batch(p, count), p.(consumed := Wrap(p.consumed as int + count as int)))
  }

  /** The cursor moves by the requested count even when the list runs short,
      so a short batch still pushes the cursor past the end of the list. */
  lemma CursorAdvancesByRequest<T>(p: Provider<T>, count: int32)
    requires 0 <= p.consumed as int && 0 <= count as int
    requires p.consumed as int + count as int <= Max
    ensures GetNewData(p, count).provider.consumed as int == p.consumed as int + count as int
    ensures |GetNewData(p, count).batch| < count as int ==>
              Start(GetNewData(p, count).provider) > |p.data|
  {
  }

  /** Once the cursor is at or past the end of the list, every call returns an
      empty batch and (without wrap-around) the cursor stays past the end. */
  lemma ExhaustedStaysEmpty<T>(p: Provider<T>, count: int32)
    requires Start(p) >= |p.data|
    ensures GetNewData(p, count).batch == []
    ensures 0 <= count as int && p.consumed as int + count as int <= Max ==>
              Start(GetNewData(p, count).provider) >= |p.data|
  {
  }

  /** The cursor is a 32-bit `int`: requesting past `int.MaxValue` wraps it
      negative, and `Skip` of a negative count starts the list over, so items
      already handed out are handed out again. */
  lemma CursorWrapRedelivers<T>(data: seq<Nullable<T>>)
    requires 0 < |data| <= Max
    ensures var first := GetNewData(Provider(data, Max as int32), 1);
            && first.batch == []
            && first.provider.consumed as int == Min
            && GetNewData(first.provider, 1).batch == data[..1]
  {
  }

  /** Total of a run of request sizes. */
  function Sum(counts: seq<int32>): int
  {
    if |counts| == 0 then 0 else counts[0] as int + Sum(counts[1..])
  }

  /** Every batch of a run of requests, concatenated, and the provider after the last. */
  function FetchAll<T>(p: Provider<T>, counts: seq<int32>): (r: Fetched<T>)
    decreases |counts|
  {
    if |counts| == 0 then Fetched([], p)
    else
      var f := GetNewData(p, counts[0]);
      var rest := FetchAll(f.provider, counts[1..]);
      Fetched(f.batch + rest.batch, rest.provider)
  }

  /** Successive requests with non-negative sizes, while the cursor does not
      wrap, return consecutive runs of the list: together they are the run of
      the list from the first cursor position, nothing repeated and nothing skipped. */
  lemma {:induction false} SuccessiveCallsConcatenate<T>(p: Provider<T>, counts: seq<int32>)
    requires 0 <= p.consumed as int
    requires forall i :: 0 <= i < |counts| ==> counts[i] >= 0
    requires p.consumed as int + Sum(counts) <= Max
    ensures Sum(counts) >= 0
    ensures FetchAll(p, counts).provider.consumed as int == p.consumed as int + Sum(counts)
    ensures FetchAll(p, counts).provider.data == p.data
    ensures FetchAll(p, counts).batch == Rest(p)[..Smaller(Sum(counts), |Rest(p)|)]
    decreases |counts|
  {
    if |counts| > 0 {
      var f := GetNewData(p, counts[0]);
      SumNonNegative(counts[1..]);
      RestAfterFetch(p, counts[0]);
      SuccessiveCallsConcatenate(f.provider, counts[1..]);
      var n0 := |f.batch|;
      var m := Smaller(Sum(counts[1..]), |Rest(f.provider)|);
      assert n0 + m == Smaller(Sum(counts), |Rest(p)|);
      PrefixSplit(Rest(p), n0, m);
    }
  }

  /** A request that does not wrap the cursor consumes exactly its batch from
      what the list still owes. */
  lemma RestAfterFetch<T>(p: Provider<T>, count: int32)
    requires 0 <= p.consumed as int && 0 <= count as int
    requires p.consumed as int + count as int <= Max
    ensures var f := GetNewData(p, count);
            && Rest(f.provider) == Rest(p)[|f.batch|..]
            && (|f.batch| < count as int ==> Rest(f.provider) == [])
  {
  }

  lemma PrefixSplit<T>(s: seq<T>, i: nat, m: nat)
    requires i + m <= |s|
    ensures s[..i] + s[i..][..m] == s[..i + m]
  {
  }

  lemma {:induction false} SumNonNegative(counts: seq<int32>)
    requires forall i :: 0 <= i < |counts| ==> counts[i] >= 0
    ensures Sum(counts) >= 0
    decreases |counts|
  {
    if |counts| > 0 {
      SumNonNegative(counts[1..]);
    }
  }

  /** The test provider's constructor: the fill loop runs for i = 0 .. DataCount
      inclusive, so the list holds DataCount + 1 items; `fakeName(i)` stands for
      the i-th generated name. */
  method NewTestProvider(fakeName: nat -> string) returns (p: Provider<string>)
    ensures |p.data| == DataCount + 1
    ensures forall i :: 0 <= i < |p.data| ==> p.data[i] == NonNull(fakeName(i))
    ensures p.consumed == 0
  {
    var data: seq<Nullable<string>> := [];
    var i := 0;
    while i <= DataCount
      invariant 0 <= i <= DataCount + 1
      invariant |data| == i
      invariant forall j :: 0 <= j < i ==> data[j] == NonNull(fakeName(j))
    {
      data := data + [NonNull(fakeName(i))];
      i := i + 1;
    }
    p := Provider(data, 0);
  }
}

=== FILE: int32.dfy ===
/** C#'s `int`: a 32-bit two's-complement integer whose `+` and `-` wrap around
    silently in the default (unchecked) context. */
module Int32 {

  const Modulus: int := 0x1_0000_0000
  const Min: int := -0x8000_0000
  const Max: int := 0x7FFF_FFFF

  newtype int32 = x: int | -0x8000_0000 <= x < 0x8000_0000

  /** The unchecked result of an arithmetic operation whose exact value is `x`:
      the unique 32-bit value congruent to `x` modulo 2^32. */
  function Wrap(x: int): (r: int32)
    ensures Min <= x <= Max ==> r as int == x
    ensures x == Max + 1 ==> r as int == Min
  {
    ((x - Min) % Modulus + Min) as int32
  }

  /** Wrapping keeps the value modulo 2^32, so a wrapped result differs from
      the exact one by a whole number of turns. */
  lemma WrapCongruent(x: int)
    ensures (Wrap(x) as int - x) % Modulus == 0
  {
  }
}

=== FILE: items.dfy ===
/** Items as C# sees them: a reference that may be null. The queue itself only
    ever stores non-null items. */
module Items {

  datatype Nullable<T> = Null | NonNull(value: T)

  predicate AllNonNull<T>(s: seq<Nullable<T>>)
  {
    forall i :: 0 <= i < |s| ==> s[i].NonNull?
  }

  /** The items `_Enqueue` stores when it is handed the batch `s` one item at a
      time: everything before the first null, where it throws. */
  function Accepted<T>(s: seq<Nullable<T>>): (r: seq<T>)
    ensures |r| <= |s|
    ensures forall i :: 0 <= i < |r| ==> s[i] == NonNull(r[i])
    ensures |r| < |s| ==> s[|r|].Null?
    ensures |r| == |s| <==> AllNonNull(s)
  {
    if |s| == 0 || s[0].Null? then [] else [s[0].value] + Accepted(s[1..])
  }

  /** A batch without nulls is accepted whole, so accepting two batches in a row
      is accepting their concatenation. */
  lemma {:induction false} AcceptedAppend<T>(a: seq<Nullable<T>>, b: seq<Nullable<T>>)
    requires AllNonNull(a)
    ensures Accepted(a + b) == Accepted(a) + Accepted(b)
  {
    if |a| > 0 {
      assert (a + b)[1..] == a[1..] + b;
      AcceptedAppend(a[1..], b);
    } else {
      assert a + b == b;
    }
  }
}

=== FILE: queue_runs.dfy ===
/** Properties of single calls and of runs of calls on the queue: permit
    accounting, first-in-first-out order, exhaustion, and conservation of the
    provider's items when a consumer drains the queue. */
module QueueRuns {
  import opened Int32
  import opened Items
  import opened DataProvider
  import opened AutoFuelQueue

  /** On a non-empty queue a dequeue that gets past the wait hands out the head,
      keeps the tail, and leaves the permit count where it found it. */
  lemma DequeueFromNonEmpty<T>(q: Queue<T>, mode: WaitMode)
    requires |q.items| > 0 && q.permits > 0 && mode != CanceledToken
    ensures DequeueAsync(q, mode) == Step(q.(items := q.items[1..]), Item(q.items[0]))
  {
  }

  /** On an empty queue a dequeue asks the provider for exactly `_poolSize` items,
      queues the batch in the provider's order and hands out its first item, or
      throws `EndOfQueueException` when the batch is empty; either way the
      permit count ends where it started. */
  lemma DequeueFromEmpty<T>(q: Queue<T>, mode: WaitMode)
    requires |q.items| == 0 && q.permits > 0 && mode != CanceledToken
    requires AllNonNull(q.provider.data)
    ensures var fetched := GetNewData(q.provider, q.poolSize);
            var r := DequeueAsync(q, mode);
            && (fetched.batch == [] ==> r == Step(q.(provider := fetched.provider), EndOfQueue))
            && (fetched.batch != [] ==>
                  r == Step(q.(items := Accepted(fetched.batch)[1..], provider := fetched.provider),
                            Item(fetched.batch[0].value)))
  {
  }

  /** Without initial fueling the semaphore starts at 0, so the untimed
      `DequeueAsync` on a fresh queue waits for ever unless something is enqueued. */
  lemma UnfueledQueueBlocks<T>(poolSize: int32, provider: Provider<T>)
    ensures New(poolSize, provider, false).Some?
    ensures DequeueAsync(New(poolSize, provider, false).value, Untimed).outcome == Blocked
  {
  }

  /** A manual `Enqueue` on an empty queue followed by a dequeue hands the same
      item back and restores the contents; the permit `Enqueue` added stays. */
  lemma EnqueueThenDequeue<T>(q: Queue<T>, x: T, mode: WaitMode)
    requires |q.items| == 0 && mode != CanceledToken
    ensures var e := Enqueue(q, NonNull(x));
            DequeueAsync(e.state, mode) == Step(q.(permits := q.permits + 1), Item(x))
  {
  }

  /** `Enqueue` adds a permit per item, so on a fueled queue the semaphore's
      count goes past 1: it is a counting semaphore, not a binary gate. */
  lemma EnqueueExceedsBinaryGate<T>(poolSize: int32, provider: Provider<T>, x: T)
    requires New(poolSize, provider, true).Some?
    ensures Enqueue(New(poolSize, provider, true).value, NonNull(x)).state.permits == 2
  {
  }

  /** A timed overload that times out without a permit still runs the body and
      releases, so the count ends one higher than it started. */
  lemma TimedOutCallAddsPermit<T>(q: Queue<T>)
    requires q.permits == 0
    requires DequeueAsync(q, Timed).outcome.Item? || DequeueAsync(q, Timed).outcome == EndOfQueue
    ensures DequeueAsync(q, Timed).state.permits == 1
  {
  }

  /** A null in a fuel batch makes the dequeue throw with its permit still
      held: from a count of 1 the semaphore drops to 0 and the next untimed
      dequeue never gets in. */
  lemma NullInBatchLeaksPermit<T>(q: Queue<T>)
    requires q.permits == 1 && |q.items| == 0
    requires !AllNonNull(FuelBatch(q))
    ensures DequeueAsync(q, Untimed).outcome == ArgumentNull
    ensures DequeueAsync(q, Untimed).state.permits == 0
    ensures DequeueAsync(DequeueAsync(q, Untimed).state, Untimed).outcome == Blocked
  {
  }

  /** End of queue is not latched: the permit is back, so the next dequeue
      does not block, and an item enqueued afterwards is handed out. */
  lemma ExhaustionNotLatched<T>(q: Queue<T>, mode: WaitMode, x: T)
    requires DequeueAsync(q, mode).outcome == EndOfQueue
    ensures DequeueAsync(DequeueAsync(q, mode).state, Untimed).outcome != Blocked
    ensures var e := Enqueue(DequeueAsync(q, mode).state, NonNull(x));
            DequeueAsync(e.state, Untimed).outcome == Item(x)
  {
  }

  /** The outcomes of a run of dequeues, each starting from the state the
      previous one left. */
  function Run<T>(q: Queue<T>, modes: seq<WaitMode>): (trace: seq<Step<T>>)
    ensures |trace| == |modes|
    decreases |modes|
  {
    if |modes| == 0 then []
    else
      var s := DequeueAsync(q, modes[0]);
      [s] + Run(s.state, modes[1..])
  }

  /** Permit invariant: from a count of 1 and a provider without nulls, any run
      of dequeues, whatever overload each uses, keeps the count at exactly 1
      after every call, and no call blocks. */
  lemma {:induction false} PermitInvariant<T>(q: Queue<T>, modes: seq<WaitMode>)
    requires q.permits == 1 && AllNonNull(q.provider.data)
    ensures forall i :: 0 <= i < |modes| ==>
              && Run(q, modes)[i].state.permits == 1
              && Run(q, modes)[i].outcome != Blocked
              && Run(q, modes)[i].outcome != ArgumentNull
    decreases |modes|
  {
    if |modes| > 0 {
      var s := DequeueAsync(q, modes[0]);
      OnePermitStep(q, modes[0]);
      PermitInvariant(s.state, modes[1..]);
      assert Run(q, modes)[1..] == Run(s.state, modes[1..]);
    }
  }

  /** One dequeue of the permit invariant: with a single permit and no nulls
      to trip over, the call takes the permit and gives it back. */
  lemma OnePermitStep<T>(q: Queue<T>, mode: WaitMode)
    requires q.permits == 1 && AllNonNull(q.provider.data)
    ensures var r := DequeueAsync(q, mode);
            && r.state.permits == 1 && r.state.provider.data == q.provider.data
            && r.outcome != Blocked && r.outcome != ArgumentNull
  {
    assert AllNonNull(FuelBatch(q));
  }

  /** A queue built with initial fueling over a provider without nulls starts
      with exactly one permit, so the permit invariant covers every run of
      dequeues on it. */
  lemma FueledQueueKeepsOnePermit<T>(poolSize: int32, provider: Provider<T>, modes: seq<WaitMode>)
    requires AllNonNull(provider.data)
    ensures New(poolSize, provider, true).Some?
    ensures New(poolSize, provider, true).value.permits == 1
    ensures forall i :: 0 <= i < |modes| ==>
              Run(New(poolSize, provider, true).value, modes)[i].state.permits == 1
  {
    assert AllNonNull(GetNewData(provider, poolSize).batch);
    PermitInvariant(New(poolSize, provider, true).value, modes);
  }

  /** A provider with nothing to give: every dequeue on an empty queue holding
      a permit throws `EndOfQueueException`, call after call, and never hangs. */
  lemma {:induction false} EmptyProviderAlwaysExhausted<T>(q: Queue<T>, modes: seq<WaitMode>)
    requires |q.items| == 0 && q.permits > 0 && q.provider.data == []
    requires forall i :: 0 <= i < |modes| ==> modes[i] != CanceledToken
    ensures forall i :: 0 <= i < |modes| ==> Run(q, modes)[i].outcome == EndOfQueue
    decreases |modes|
  {
    if |modes| > 0 {
      var s := DequeueAsync(q, modes[0]);
      EmptyProviderAlwaysExhausted(s.state, modes[1..]);
      assert Run(q, modes)[1..] == Run(s.state, modes[1..]);
    }
  }

  /** Past the end of the list (and short of cursor wrap-around) a dequeue on
      an empty queue throws `EndOfQueueException` and leaves a state of the
      same kind: every consumer's last call reports exhaustion. */
  lemma ExhaustedStaysExhausted<T>(q: Queue<T>)
    requires |q.items| == 0 && q.permits > 0
    requires Start(q.provider) >= |q.provider.data|
    requires 0 <= q.poolSize && q.provider.consumed as int + q.poolSize as int <= Max
    ensures var r := DequeueAsync(q, Untimed);
            && r.outcome == EndOfQueue
            && r.state.items == [] && r.state.permits == q.permits
            && Start(r.state.provider) >= |r.state.provider.data|
  {
    ExhaustedStaysEmpty(q.provider, q.poolSize);
  }

  /** The states a single consumer can drain from without the cursor ever
      wrapping: a positive pool size, a permit, no nulls, and a cursor that
      is at most one request past the end of the list. */
  ghost predicate Drainable<T>(q: Queue<T>)
  {
    && 0 < q.poolSize
    && q.permits > 0
    && AllNonNull(q.provider.data)
    && 0 <= q.provider.consumed as int <= |q.provider.data| + q.poolSize as int
    && |q.provider.data| + 2 * q.poolSize as int <= Max
  }

  /** Items the queue still owes its consumers: those queued and those the
      provider has not handed out. */
  function Pending<T>(q: Queue<T>): seq<T>
  {
    q.items + Accepted(Rest(q.provider))
  }

  /** One dequeue from a drainable state: either it hands out the first pending
      item and the rest stay pending, or nothing was pending and it reports
      end of queue. */
  lemma DrainStep<T>(q: Queue<T>)
    requires Drainable(q)
    ensures var r := DequeueAsync(q, Untimed);
            && (r.outcome.Item? || r.outcome == EndOfQueue)
            && (r.outcome.Item? <==> |Pending(q)| > 0)
            && r.state.permits == q.permits
            && (r.outcome.Item? ==> Drainable(r.state) && [r.outcome.value] + Pending(r.state) == Pending(q))
            && (r.outcome == EndOfQueue ==> r.state.items == [] && Start(r.state.provider) >= |r.state.provider.data|)
  {
    if |q.items| > 0 {
      DrainStepPop(q);
    } else if Start(q.provider) < |q.provider.data| {
      DrainStepFuel(q);
    } else {
      ExhaustedStaysExhausted(q);
    }
  }

  /** The pop case of `DrainStep`: the head of the queue is the first pending item. */
  lemma DrainStepPop<T>(q: Queue<T>)
    requires Drainable(q) && |q.items| > 0
    ensures var r := DequeueAsync(q, Untimed);
            && r.outcome.Item?
            && r.state.permits == q.permits
            && Drainable(r.state)
            && [r.outcome.value] + Pending(r.state) == Pending(q)
  {
    var s := q.(items := q.items[1..]);
    assert [q.items[0]] + Pending(s) == Pending(q) by {
      assert q.items == [q.items[0]] + q.items[1..];
    }
    DequeueFromNonEmpty(q, Untimed);
  }

  /** The refill case of `DrainStep`: the queue is empty and the list is not
      used up, so the batch is non-empty and its head is the first pending item. */
  lemma DrainStepFuel<T>(q: Queue<T>)
    requires Drainable(q) && |q.items| == 0 && Start(q.provider) < |q.provider.data|
    ensures var r := DequeueAsync(q, Untimed);
            && r.outcome.Item?
            && r.state.permits == q.permits
            && Drainable(r.state)
            && [r.outcome.value] + Pending(r.state) == Pending(q)
  {
    var fetched := GetNewData(q.provider, q.poolSize);
    var b := fetched.batch;
    RestSplits(q.provider, q.poolSize);
    var s := q.(items := Accepted(b)[1..], provider := fetched.provider);
    RefilledState(q, b, fetched.provider);
    DequeueFromEmpty(q, Untimed);
    assert DequeueAsync(q, Untimed) == Step(s, Item(b[0].value));
  }

  /** The state a refill leaves behind, as far as draining is concerned: still
      drainable, and owing everything the old state owed except the batch's head. */
  lemma RefilledState<T>(q: Queue<T>, b: seq<Nullable<T>>, p': Provider<T>)
    requires Drainable(q) && |q.items| == 0 && Start(q.provider) < |q.provider.data|
    requires |b| > 0 && AllNonNull(b) && p'.data == q.provider.data
    requires p'.consumed as int == q.provider.consumed as int + q.poolSize as int
    requires Accepted(Rest(q.provider)) == Accepted(b) + Accepted(Rest(p'))
    ensures Drainable(q.(items := Accepted(b)[1..], provider := p'))
    ensures [b[0].value] + Pending(q.(items := Accepted(b)[1..], provider := p')) == Pending(q)
  {
    HeadThenTail(Accepted(b), b[0].value, Accepted(Rest(p')));
  }

  /** Taking the head off the front of `a + x` leaves `a`'s tail followed by `x`. */
  lemma HeadThenTail<T>(a: seq<T>, h: T, x: seq<T>)
    requires |a| > 0 && a[0] == h
    ensures [h] + (a[1..] + x) == a + x
  {
    assert a == [h] + a[1..];
  }

  /** A request that does not wrap the cursor splits what the list still owes
      into the batch and what remains after it. */
  lemma RestSplits<T>(p: Provider<T>, count: int32)
    requires AllNonNull(p.data) && Start(p) < |p.data|
    requires 0 <= p.consumed as int && 0 < count as int && p.consumed as int + count as int <= Max
    ensures var f := GetNewData(p, count);
            && |f.batch| > 0
            && f.provider.consumed as int == p.consumed as int + count as int
            && Accepted(Rest(p)) == Accepted(f.batch) + Accepted(Rest(f.provider))
  {
    var f := GetNewData(p, count);
    assert Rest(p) == f.batch + Rest(f.provider);
    assert AllNonNull(f.batch);
    AcceptedAppend(f.batch, Rest(f.provider));
  }

  /** What a drain ends with: every item handed out, in order, and the
      end-of-queue step that stopped it. */
  datatype Drained<T> = Drained(delivered: seq<T>, last: Step<T>)

  /** A consumer calling `DequeueAsync` until it catches `EndOfQueueException`.
      Conservation: it receives every pending item exactly once, in queue
      order and then list order, and stops at end of queue with the permit
      count unchanged. */
  function Drain<T>(q: Queue<T>): (r: Drained<T>)
    requires Drainable(q)
    ensures r.delivered == Pending(q)
    ensures r.last.outcome == EndOfQueue
    ensures r.last.state.items == [] && r.last.state.permits == q.permits
    ensures Start(r.last.state.provider) >= |r.last.state.provider.data|
    decreases |Pending(q)|
  {
    DrainStep(q);
    var s := DequeueAsync(q, Untimed);
    if s.outcome.Item? then
      var rest := Drain(s.state);
      Drained([s.outcome.value] + rest.delivered, rest.last)
    else
      Drained([], s)
  }

  /** A queue freshly built with initial fueling over a provider without
      nulls owes exactly the provider's whole list, and a consumer can drain it. */
  lemma FreshQueueOwesWholeList<T>(poolSize: int32, provider: Provider<T>)
    requires 0 < poolSize && provider.consumed == 0 && AllNonNull(provider.data)
    requires |provider.data| + 2 * poolSize as int <= Max
    ensures New(poolSize, provider, true).Some?
    ensures Drainable(New(poolSize, provider, true).value)
    ensures Pending(New(poolSize, provider, true).value) == Accepted(provider.data)
  {
    assert Rest(provider) == provider.data;
    if |provider.data| > 0 {
      RestSplits(provider, poolSize);
    }
  }

  /** Conservation from construction: a queue built with initial fueling over
      a fresh provider without nulls, drained by a consumer until end of
      queue, hands out every item of the provider's list exactly once, in
      list order. */
  lemma ConservationFromConstruction<T>(poolSize: int32, provider: Provider<T>)
    requires 0 < poolSize && provider.consumed == 0 && AllNonNull(provider.data)
    requires |provider.data| + 2 * poolSize as int <= Max
    ensures New(poolSize, provider, true).Some?
    ensures Drainable(New(poolSize, provider, true).value)
    ensures Drain(New(poolSize, provider, true).value).delivered == Accepted(provider.data)
    ensures |Drain(New(poolSize, provider, true).value).delivered| == |provider.data|
  {
    FreshQueueOwesWholeList(poolSize, provider);
  }

  /** The test setup: a pool size of 10 over the test provider's list of
      DataCount + 1 names. Draining the queue yields the whole list, in
      order, each name once: DataCount + 1 successful dequeues. */
  lemma TestScenarioDeliversEverything(provider: Provider<string>)
    requires |provider.data| == DataCount + 1 && provider.consumed == 0
    requires forall i :: 0 <= i < |provider.data| ==> provider.data[i].NonNull?
    ensures New(10, provider, true).Some?
    ensures Drainable(New(10, provider, true).value)
    ensures |Drain(New(10, provider, true).value).delivered| == DataCount + 1
    ensures forall i :: 0 <= i <= DataCount ==>
              Drain(New(10, provider, true).value).delivered[i] == provider.data[i].value
  {
    ConservationFromConstruction(10, provider);
  }

  /** The queue of the test setup over a list of generated names, drainable,
      its drain handing out the i-th name as the i-th item. */
  function TestQueue(fakeName: nat -> string, provider: Provider<string>): (q: Queue<string>)
    requires |provider.data| == DataCount + 1 && provider.consumed == 0
    requires forall i :: 0 <= i < |provider.data| ==> provider.data[i] == NonNull(fakeName(i))
    ensures New(10, provider, true) == Some(q)
    ensures Drainable(q)
    ensures |Drain(q).delivered| == DataCount + 1
    ensures forall i :: 0 <= i <= DataCount ==> Drain(q).delivered[i] == fakeName(i)
  {
    TestScenarioDeliversEverything(provider);
    New(10, provider, true).value
  }

  /** The whole test: build the test provider, build the queue with a pool
      size of 10 on it, and drain it; the consumer receives the i-th generated
      name as its i-th item, DataCount + 1 names in all. */
  method TestScenario(fakeName: nat -> string) returns (delivered: seq<string>)
    ensures |delivered| == DataCount + 1
    ensures forall i :: 0 <= i <= DataCount ==> delivered[i] == fakeName(i)
  {
    var provider := NewTestProvider(fakeName);
    var q := TestQueue(fakeName, provider);
    delivered := Drain(q).delivered;
  }
}
